=== FILE: README.md ===
# find-redact-attachments: the decision logic of `utils.py`

This project models, in Dafny, the decision logic of a batch tool that finds the
attachments of a support-ticket export still to be redacted and calls the
platform's redaction API under its rate limit. It covers:

- the **attachment selector** (`find_attachments_to_be_redacted`). It walks tickets,
  then comments, then attachments. It keeps the content URL of every attachment whose
  file name does not contain `redacted.txt`, grouped by comment and then by ticket.
  Empty groups are dropped. It also lists the ids of tickets to export again,
  one entry per comment that has no attachments and carries the
  `MaximumCommentsSizeExceeded` error;
- the **reprocess artifact**: `"[" + ",".join(map(str, ids)) + "]"`;
- the **rate-limited request** (`request_with_rate_limit`): a 429 answer is waited out for
  30 seconds and the identical request is sent again, and any other failure is raised.
  After a success the rate-limit headers decide whether to pause before the next call.
  The pause happens exactly when remaining ≤ 60% of the limit and the reset is at
  least 30 seconds away. Every such pause lasts 15 seconds;
- the **NDJSON reformatting** (`format_ndjson`): split on line feeds, drop lines that
  are blank after `strip()`, and parse every remaining line.

Everything is a pure function over immutable datatypes, except the selector's loops.
The loops are kept as methods (`Selector.CollectUrls`, `Selector.WalkComments`,
`Selector.WalkTickets`, `Selector.FindAttachmentsToBeRedacted`). Each is proved
equal to the corresponding part of the functional definition `Selector.Select`, and
from empty accumulators `Selector.FindAttachmentsToBeRedacted` yields `Select` itself.

Modules, one per concern:

| file | module | what it holds |
|---|---|---|
| wrappers.dfy | `Wrappers` | `Option`, `Result` |
| sequences.dfy | `Sequences` | order-preserving selection `FilterMap` and its kept positions `Hits` |
| text.dfy | `Text` | Python `in`, `str.split`/`str.join` on one character, `str.strip()` |
| decimal.dfy | `Decimal` | Python `str(int)` and `int(str)` |
| json.dfy | `Json` | JSON values |
| tickets.dfy | `Tickets` | tickets, comments, attachments, the selector's output groups, the two constants |
| walk.dfy | `CommentWalk` | the order in which the selector visits comments |
| selector.dfy | `Selector` | the attachment selector |
| reprocess.dfy | `ReprocessArtifact` | the reprocess artifact and a reader for it |
| throttle.dfy | `Throttle` | the rate-limit headers and the pause decision |
| request.dfy | `RateLimitedRequest` | the 429 retry policy over a scripted server |
| ndjson.dfy | `Ndjson` | NDJSON line splitting and parsing |

Many properties are stated through positions. `Sequences.Hits(f, s)` is the strictly
increasing list of the positions of `s` that `f` accepts, and it holds every accepted
position. Saying that an output equals the payloads at `Hits`, one per position, says
four things at once: the output is a subsequence of the input, order is kept, nothing
accepted is missing, and nothing rejected is present.

Behaviour of the code worth knowing:

- Attachments are identified only by content URL (utils.py:155, 160).
- A comment with a non-empty attachments list never adds to the reprocess list. This
  holds even when it carries the size-exceeded error and even when all of its attachments
  were already redacted, because the test is an `elif` (utils.py:152, 165).
- The accumulators are module-level lists (utils.py:17-18). A second call in the same
  process appends to what the first call left, so the artifacts are identical across runs
  only because every run starts a fresh process. `Selector.FindAttachmentsToBeRedacted`
  takes and returns these accumulators. From empty ones its result is `Selector.Select`.
- The comment at utils.py:39 says the pause is at most 10 seconds. The code caps it at
  15, and because a pause needs a reset of at least 30 seconds, every pause is exactly 15
  seconds.

## Model

| member | source | states |
|---|---|---|
| Text.ContainsIff | utils.py:159 | the substring test used for the redacted marker holds exactly when the marker occurs at some position of the file name |
| Selector.CommentGroupContents | utils.py:152-163 | a comment yields a group iff its attachments list is non-empty and holds an attachment whose file name lacks the marker; the group carries the comment's id and the content URLs of exactly those attachments, in list order |
| Selector.TicketGroupContents | utils.py:145-169 | a ticket yields a group iff some comment has a non-empty attachments list with an attachment not yet redacted; the group carries the ticket id and the groups of exactly the comments that yield one, in comment order |
| Selector.SelectedTickets | utils.py:145-169 | the emitted tickets are exactly the input tickets with a redactable attachment, each once, in input order |
| Selector.TicketGroupNonEmpty | utils.py:162-169 | a ticket's group holds at least one comment group and no comment group is empty |
| Selector.NoEmptyGroups | utils.py:162-169 | no emitted ticket has zero comment groups and no emitted comment group has zero URLs |
| Selector.CommentGroupFrom | utils.py:152-163 | every URL of a comment group is the content URL of an attachment of that comment whose file name lacks the marker |
| Selector.TicketGroupFrom | utils.py:145-169 | every comment group of a ticket group comes from a comment of that ticket with the same id and a non-empty attachments list |
| Selector.SelectedUrlsAreUnredacted | utils.py:145-169 | every emitted URL traces back to an unredacted attachment of a comment with the group's id, of a ticket with the group's id |
| Selector.RedactableAttachmentIsSelected | utils.py:150-169 | every unredacted attachment in a comment with a non-empty attachments list has its URL in that comment's group inside that ticket's group |
| Selector.ReprocessEntries | utils.py:150-166 | the reprocess list has one entry per visited comment with no non-empty attachments list and the size-exceeded error, in visiting order, duplicates kept, each entry being that comment's ticket id |
| Selector.MalformedCommentsContributeNothing | utils.py:150 | a ticket whose `comments` key is absent or not a list can be removed from the input without changing either output |
| Selector.CollectUrls | utils.py:158-160 | the attachment loop computes exactly the order-preserving selection of unredacted content URLs |
| Selector.WalkComments | utils.py:151-166 | the comment loop of one ticket computes exactly the ticket's comment groups and its reprocess entries |
| Selector.WalkTickets | utils.py:145-169 | the ticket loop computes exactly the selector's two outputs |
| Selector.FindAttachmentsToBeRedacted | utils.py:134-179 | the selector appends its outputs to the module-level accumulators and renders the reprocess artifact from the whole reprocess accumulator |
| CommentWalk.VisitAt | utils.py:145-151 | comment `j` of ticket `i` is visited at offset `j` of ticket `i`'s block, paired with that ticket's id |
| CommentWalk.VisitFrom | utils.py:145-151 | every visit pairs an input ticket's id with one of that ticket's comments |
| ReprocessArtifact.RenderIds | utils.py:179 | the artifact is bracketed, and an empty reprocess list renders as `[]` |
| ReprocessArtifact.RenderParse | utils.py:179 | for numeric ticket ids the artifact reads back as exactly the ids, in order, duplicates kept |
| ReprocessArtifact.RenderedPieces | utils.py:179 | for any non-empty list of ids, numbers or strings, whose written forms hold no comma, the text between the brackets splits at its commas into exactly the written ids, in order |
| Decimal.ShowParseInt | utils.py:179 | Python's `int` reads back every integer that `str` writes |
| Text.SplitJoin | utils.py:179 | splitting a comma-join of comma-free pieces gives the pieces back |
| Throttle.PauseDecision | utils.py:38-39 | a pause is taken iff remaining ≤ 0.6 × limit (exact real arithmetic) and reset ≥ 30; every pause is 15 seconds; an unparsable remaining or limit raises; with remaining above 60% the reset value is never read and there is no pause; with remaining at most 60%, an unparsable reset raises and a reset below 30 means no pause |
| Throttle.ReadRateLimit | utils.py:28-41 | the first absent header, in the order limit, remaining, reset, raises with that header's name; the returned values are the three headers as sent; with all three present and any of them empty, the call returns them normally with no pause and no integer parsing; with all three non-empty the pause decision is taken, and its pause or its error is the result |
| RateLimitedRequest.Settle | utils.py:24-61 | a non-429 attempt ends in a transport failure, the HTTP error for a 4xx/5xx status, the header fault raised while reading the rate-limit headers of any other status, or otherwise a return of that status with its rate-limit snapshot |
| RateLimitedRequest.RequestWithRateLimit | utils.py:50-55 | every request sent is identical to the original, and there are no more attempts than scripted responses |
| RateLimitedRequest.OutcomeOfFirstNon429 | utils.py:50-58 | the call ends as the first non-429 response decides, after exactly one 30-second wait and one identical resend per preceding 429; a non-429 error gets no retry; with only 429s, every attempt was throttled |
| Text.Strip | utils.py:121 | `strip()` yields a slice of the line that neither starts nor ends with whitespace, and it is empty exactly when the line is made only of whitespace |
| Text.StripRemovesOnlyWhitespace | utils.py:121 | what `strip()` drops before and after the slice it keeps is whitespace only |
| Text.Split | utils.py:121 | a split on a line feed gives one more piece than there are line feeds, and no piece contains a line feed |
| Text.JoinSplit | utils.py:121 | the pieces of a split, joined with the separator, rebuild the string |
| Ndjson.KeptLinesAreNonBlankPieces | utils.py:121 | the kept lines are exactly the line-feed-separated pieces holding a non-whitespace character, in file order |
| Ndjson.ParseEach | utils.py:124 | parsing either yields one object per line, each the parse of that line, or stops at the first line the parser rejects |
| Ndjson.FormatNdjson | utils.py:111-132 | a missing input file is the only exit path; otherwise the number of objects equals the number of kept lines, each object is the parse of its line, and a parse failure names the first failing line |
| Ndjson.RunExitStatus | utils.py:111-132 | `format_ndjson` ends the process with `sys.exit(1)` exactly when the input file does not exist; otherwise it returns without raising, and a parse failure is only logged |

## Left out

- HTTP transport, basic authentication and `raise_for_status` itself (utils.py:20-26): an attempt's response is a scripted value with a status and the three rate-limit headers, or a connection failure.
- Sleeping (utils.py:41, 54): the model returns the sleep durations in `RateLimitedRequest.Trace.sleeps` instead of sleeping.
- `delay` (utils.py:79-86): nothing in utils.py or main.py calls it.
- Console output (`print` throughout), which decides nothing.
- `redact_ticket_comment_aw` (utils.py:64-76): a thin wrapper that builds one request and logs the reply. Only the request client it calls is modelled.
- File I/O: `store_results_to_file`, `open`, `os.path.exists` and the written files (utils.py:88-97, 112, 117, 127-128, 175-179). The input file is the text `read()` returns or `None`, and the outputs are returned values.
- Ndjson.FormatNdjson: UTF-8 decoding and text mode's newline translation (utils.py:117) are not modelled. The input is the text after both, so `"\r\n"` and a lone `'\r'` have already become `'\n'`. The model says nothing about the bytes on disk.
- JSON parsing and serialisation (`json.loads`, `json.dump`, `json.dumps`). The line parser is a parameter of `Ndjson.FormatNdjson`, and the tickets-with-attachments JSON document is not rendered.
- Loading the environment with dotenv and building credentials (utils.py:6-13).
- main.py: argument parsing, the thread-pool dispatcher and the process's exit status. Its concurrency is not modelled. It also does not fit utils.py: it imports `redact_attachment` (main.py:4-7), which utils.py does not define, and it reads `attachmentIds`, which the selector never writes. After `format_ndjson` logs a parse failure and returns, main.py:27 opens `reformatted-tickets.json`, which that call did not write. It either fails with `FileNotFoundError` or reads a file left by an earlier run.
- Merging a directory of NDJSON files: neither utils.py nor main.py contains such code.
- Throttle.PauseDecision: the source compares an integer with the float product `0.6 * int(limit)`. The model compares with the exact real 0.6 × limit, which is the same as 5 × remaining ≤ 3 × limit. Float rounding of the product is not modelled.
- Decimal.ParseInt: Python's `int()` also accepts surrounding whitespace, underscores between digits and non-ASCII digits. The model reads only an optional sign followed by ASCII digits and treats anything else as the `ValueError` case.
- Throttle.ReadRateLimit: header lookup in the source ignores case. The model receives each of the three headers already looked up.
- RateLimitedRequest.RequestWithRateLimit: the source recurses without bound while the server answers 429, until Python's recursion limit stops it. The model consumes one scripted response per attempt, and the script's length stands in for fuel. When the script runs out, the outcome is `StillThrottled`.
- Tickets: the source raises (`KeyError`/`TypeError`) only when it reads a field that is missing or of the wrong type. That happens for a ticket without `id` (utils.py:147). It happens for a comment without `id` only when the comment has a non-empty `attachments` value (utils.py:154). It happens for an `attachments` value of `null` or a number, at `len` (utils.py:152). It happens for an attachment without `file_name`, or with a `file_name` that is not a string (utils.py:159), for an unredacted attachment without `content_url` (utils.py:160), and for an `attachments` value that is non-empty but not a list of objects (utils.py:158-159). These crashes are not modelled. The record types make every field present. An input that lacks a field the source never reads is represented by giving that field any value, and the outputs are the same. An `attachments` value with length 0, such as `""` or `{}`, falls through to the `elif` at utils.py:165 like `[]`, and is represented by the empty list.
- ReprocessArtifact.ShowId: ticket ids are JSON integers or strings. Python's `str` of other JSON values (floats, booleans, null) is not modelled.
- ReprocessArtifact.RenderParse: the read-back holds for numeric ids only. A string id containing a comma, or the single string id `""`, renders ambiguously.

=== FILE: decimal.dfy ===
/**
 * Decimal integers as Python writes and reads them: `str(n)` for an `int`, and
 * `int(s)` for a string made of an optional sign and ASCII digits.
 */
module Decimal {
  import opened Wrappers

  predicate IsDigit(c: char)
  {
    '0' <= c <= '9'
  }

  predicate AllDigits(s: string)
  {
    forall k :: 0 <= k < |s| ==> IsDigit(s[k])
  }

  function DigitChar(d: nat): (c: char)
    requires d < 10
    ensures IsDigit(c)
  {
    (d + '0' as int) as char
  }

  function DigitValue(c: char): (d: nat)
    requires IsDigit(c)
    ensures d < 10 && DigitChar(d) == c
  {
    c as int - '0' as int
  }

  /** Python `str(n)` for a non-negative `int`: digits, most significant first, no leading zero. */
  function ShowNat(n: nat): (s: string)
    ensures |s| >= 1 && AllDigits(s)
    ensures |s| > 1 ==> s[0] != '0'
  {
    if n < 10 then [DigitChar(n)]
    else ShowNat(n / 10) + [DigitChar(n % 10)]
  }

  /** Python `str(n)` for any `int`: a minus sign before the digits of a negative number. */
  function ShowInt(n: int): (s: string)
    ensures |s| >= 1
    ensures forall k :: 0 <= k < |s| ==> IsDigit(s[k]) || s[k] == '-'
  {
    if n < 0 then "-" + ShowNat(-n) else ShowNat(n)
  }

  /** The value of a run of digits read most significant first (empty reads as 0). */
  function DigitsValue(s: string): nat
    requires AllDigits(s)
  {
    if |s| == 0 then 0
    else DigitsValue(s[..|s| - 1]) * 10 + DigitValue(s[|s| - 1])
  }

  /**
   * Python `int(s)` restricted to an optional `+` or `-` followed by one or more
   * ASCII digits; anything else is the `ValueError` case, here `None`.
   */
  function ParseInt(s: string): Option<int>
  {
    if |s| > 1 && (s[0] == '-' || s[0] == '+') && AllDigits(s[1..]) then
      var magnitude: int := DigitsValue(s[1..]);
      Some(if s[0] == '-' then -magnitude else magnitude)
    else if |s| > 0 && AllDigits(s) then
      Some(DigitsValue(s))
    else
      None
  }

  /** Reading back the digits of a natural number gives that number. */
  lemma {:induction false} ShowNatValue(n: nat)
    ensures DigitsValue(ShowNat(n)) == n
  {
    if n >= 10 {
      var s := ShowNat(n);
      assert s[..|s| - 1] == ShowNat(n / 10);
      ShowNatValue(n / 10);
    }
  }

  /** `int(str(n)) == n` for every integer. */
  lemma {:induction false} ShowParseInt(n: int)
    ensures ParseInt(ShowInt(n)) == Some(n)
  {
    if n < 0 {
      var s := ShowInt(n);
      assert s[1..] == ShowNat(-n);
      ShowNatValue(-n);
    } else {
      ShowNatValue(n);
    }
  }
}

=== FILE: json.dfy ===
/** JSON values, as far as the model needs them: request bodies and parsed export lines. */
module Json {

  /** A JSON value; numbers are integers (no floating point in this model). */
  datatype Json =
    | Null
    | Bool(b: bool)
    | Number(n: int)
    | Str(s: string)
    | Array(items: seq<Json>)
    | Object(members: seq<(string, Json)>)
}

=== FILE: ndjson.dfy ===
/**
 * Reformatting a newline-delimited JSON export into one JSON array: split the
 * file on line feeds, drop the lines that are empty after stripping
 * whitespace, and parse every remaining line.
 */
module Ndjson {
  import opened Wrappers
  import opened Sequences
  import opened Text
  import opened Json

  /** A piece of the file is kept when it is not empty after `strip()`. */
  function KeepLine(line: string): Option<string>
  {
    if Strip(line) != "" then Some(line) else None
  }

  /** The lines handed to the JSON parser. */
  function NdjsonLines(content: string): seq<string>
  {
    FilterMap(KeepLine, Split(content, '\n'))
  }

  /**
   * Parses every line in order; stops at the first line the parser rejects and
   * reports its index (the list comprehension raises there).
   */
  function ParseEach(lines: seq<string>, parse: string -> Option<Json>): (r: Result<seq<Json>, nat>)
    ensures r.Ok? ==> |r.value| == |lines| && forall k :: 0 <= k < |lines| ==> parse(lines[k]) == Some(r.value[k])
    ensures r.Err? ==> (r.error < |lines| && parse(lines[r.error]).None?
      && forall k :: 0 <= k < r.error ==> parse(lines[k]).Some?)
  {
    if |lines| == 0 then Ok([])
    else
      match parse(lines[0])
      case None => Err(0)
      case Some(first) =>
        match ParseEach(lines[1..], parse)
        case Ok(rest) => Ok([first] + rest)
        case Err(i) => Err(i + 1)
  }

  /**
   * How a reformatting run ends: the input file is missing (the process exits
   * with status 1), a line failed to parse (the error is logged and nothing is
   * written), or the array of parsed objects is written.
   */
  datatype FormatOutcome = InputMissing | ParseFailed(lineIndex: nat) | Formatted(objects: seq<Json>)

  /**
   * 1 when the call ends the process with `sys.exit(1)`, 0 when it returns to
   * its caller (which then decides the process's status).
   */
  function ExitStatus(r: FormatOutcome): int
  {
    if r.InputMissing? then 1 else 0
  }

  /**
   * `format_ndjson` on the text `read()` returns for the input file (`None`
   * when the file does not exist), with the JSON parser as a parameter. That
   * text is already decoded and newline-translated: text mode turns every
   * carriage return, alone or before a line feed, into one line feed.
   */
  function FormatNdjson(input: Option<string>, parse: string -> Option<Json>): (r: FormatOutcome)
    ensures input.None? <==> r.InputMissing?
    ensures r.Formatted? ==>
      var lines := NdjsonLines(input.value);
      |r.objects| == |lines| && forall k :: 0 <= k < |lines| ==> parse(lines[k]) == Some(r.objects[k])
    ensures r.ParseFailed? ==>
      var lines := NdjsonLines(input.value);
      r.lineIndex < |lines| && parse(lines[r.lineIndex]).None?
      && forall k :: 0 <= k < r.lineIndex ==> parse(lines[k]).Some?
    ensures input.Some? && (forall k :: 0 <= k < |NdjsonLines(input.value)| ==> parse(NdjsonLines(input.value)[k]).Some?)
      ==> r.Formatted?
  {
    match input
    case None => InputMissing
    case Some(content) =>
      match ParseEach(NdjsonLines(content), parse)
      case Ok(objects) => Formatted(objects)
      case Err(i) => ParseFailed(i)
  }

  /**
   * `format_ndjson` ends the process with `sys.exit(1)` exactly when the input
   * file does not exist; otherwise it returns without raising (code 0), and a
   * line that fails to parse is only logged.
   */
  function RunExitStatus(input: Option<string>, parse: string -> Option<Json>): (code: int)
    ensures code == 1 <==> input.None?
    ensures input.Some? ==> code == 0
  {
    ExitStatus(FormatNdjson(input, parse))
  }

  /**
   * The kept lines are exactly the line-feed-separated pieces of the file that
   * hold a non-whitespace character, in file order; the pieces rebuild the file.
   */
  lemma {:induction false} KeptLinesAreNonBlankPieces(content: string)
    ensures
      var pieces, lines := Split(content, '\n'), NdjsonLines(content);
      var pos := Hits(KeepLine, pieces);
      && Join(pieces, '\n') == content
      && |lines| == |pos|
      && (forall m :: 0 <= m < |lines| ==> lines[m] == pieces[pos[m]] && '\n' !in lines[m])
      && (forall j :: 0 <= j < |pieces| ==> (j in pos <==> !IsBlank(pieces[j])))
  {
    JoinSplit(content, '\n');
    KeptLinesAt(Split(content, '\n'));
  }

  lemma {:induction false} KeptLinesAt(pieces: seq<string>)
    ensures
      var lines, pos := FilterMap(KeepLine, pieces), Hits(KeepLine, pieces);
      && |lines| == |pos|
      && forall m :: 0 <= m < |lines| ==> lines[m] == pieces[pos[m]]
  {
    FilterMapAtHits(KeepLine, pieces);
  }
}

=== FILE: reprocess.dfy ===
/**
 * The reprocess artifact: the ticket ids as Python's `str` writes them, joined by
 * commas and wrapped in square brackets. `ParseIdList` reads such a text back.
 */
module ReprocessArtifact {
  import opened Wrappers
  import opened Tickets
  import opened Text
  import opened Decimal

  /** Python `str(id)`: the decimal digits of a number, a string unchanged. */
  function ShowId(id: Id): string
  {
    match id
    case Num(n) => ShowInt(n)
    case Str(s) => s
  }

  /** The artifact text: `"[" + ",".join(map(str, ids)) + "]"`. */
  function RenderIds(ids: seq<Id>): (r: string)
    ensures |r| >= 2 && r[0] == '[' && r[|r| - 1] == ']'
    ensures ids == [] ==> r == "[]"
  {
    var shown := seq(|ids|, k requires 0 <= k < |ids| => ShowId(ids[k]));
    "[" + Join(shown, ',') + "]"
  }

  /** Reads comma-separated integers; `None` as soon as one piece is not an integer. */
  function ParseInts(parts: seq<string>): (r: Option<seq<int>>)
    ensures r.Some? ==> |r.value| == |parts|
  {
    if |parts| == 0 then Some([])
    else
      match ParseInt(parts[0])
      case None => None
      case Some(n) =>
        match ParseInts(parts[1..])
        case None => None
        case Some(ns) => Some([n] + ns)
  }

  /** Reads a bracketed, comma-separated list of integers such as `[12,7]` or `[]`. */
  function ParseIdList(s: string): Option<seq<int>>
  {
    if |s| >= 2 && s[0] == '[' && s[|s| - 1] == ']' then
      var inner := s[1..|s| - 1];
      if inner == "" then Some([]) else ParseInts(Split(inner, ','))
    else None
  }

  /** Every id in the list is a number. */
  ghost predicate AllNumeric(ids: seq<Id>)
  {
    forall k :: 0 <= k < |ids| ==> ids[k].Num?
  }

  lemma {:induction false} ParseShownInts(ns: seq<int>)
    ensures ParseInts(seq(|ns|, k requires 0 <= k < |ns| => ShowInt(ns[k]))) == Some(ns)
    decreases |ns|
  {
    if |ns| > 0 {
      var shown := seq(|ns|, k requires 0 <= k < |ns| => ShowInt(ns[k]));
      ShowParseInt(ns[0]);
      assert ParseInt(shown[0]) == Some(ns[0]);
      ParseShownInts(ns[1..]);
      assert shown[1..] == seq(|ns[1..]|, k requires 0 <= k < |ns[1..]| => ShowInt(ns[1..][k]));
      assert ParseInts(shown[1..]) == Some(ns[1..]);
      assert ParseInts(shown) == Some([ns[0]] + ns[1..]);
      assert [ns[0]] + ns[1..] == ns;
    }
  }

  /** For numeric ids the artifact reads back as exactly the ids, in order, duplicates kept. */
  lemma {:induction false} RenderParse(ids: seq<Id>)
    requires AllNumeric(ids)
    ensures ParseIdList(RenderIds(ids)) == Some(seq(|ids|, k requires 0 <= k < |ids| => ids[k].n))
  {
    var ns := seq(|ids|, k requires 0 <= k < |ids| => ids[k].n);
    var shown := seq(|ids|, k requires 0 <= k < |ids| => ShowId(ids[k]));
    assert shown == seq(|ns|, k requires 0 <= k < |ns| => ShowInt(ns[k]));
    var r := RenderIds(ids);
    assert r[1..|r| - 1] == Join(shown, ',');
    if |ids| > 0 {
      assert forall k :: 0 <= k < |shown| ==> ',' !in shown[k];
      SplitJoin(shown, ',');
      ParseShownInts(ns);
      assert |shown[0]| >= 1;
      assert Join(shown, ',') != "";
    }
  }

  /**
   * For any ids whose written forms are free of commas, numbers and strings
   * alike, the text between the brackets splits at its commas into exactly the
   * written ids, in order, duplicates kept.
   */
  lemma {:induction false} RenderedPieces(ids: seq<Id>)
    requires |ids| > 0
    requires forall k :: 0 <= k < |ids| ==> ',' !in ShowId(ids[k])
    ensures var r := RenderIds(ids);
      Split(r[1..|r| - 1], ',') == seq(|ids|, k requires 0 <= k < |ids| => ShowId(ids[k]))
  {
    var shown := seq(|ids|, k requires 0 <= k < |ids| => ShowId(ids[k]));
    var r := RenderIds(ids);
    assert r[1..|r| - 1] == Join(shown, ',');
    SplitJoin(shown, ',');
  }
}

=== FILE: request.dfy ===
/**
 * One call to the remote API with the rate-limit policy: a 429 answer is
 * waited out and the identical request sent again; any other HTTP error, a
 * transport failure or a bad rate-limit header is raised to the caller; a
 * successful answer returns the three rate-limit header values after the
 * proactive pause, if one is due.
 *
 * The server is a scripted sequence of responses, one per attempt. The script
 * also bounds the recursion: when it runs out while the server is still
 * answering 429, the outcome is `StillThrottled`.
 */
module RateLimitedRequest {
  import opened Wrappers
  import opened Json
  import opened Throttle

  /** HTTP "Too Many Requests". */
  const TooManyRequests: int := 429

  /** Seconds waited after a 429 before the request is sent again. */
  const RetryWaitSeconds: nat := 30

  /** Everything that goes on the wire; a retry sends all of it unchanged. */
  datatype Request = Request(url: string, headers: seq<(string, string)>, httpMethod: string, data: Option<Json>)

  /** What one attempt gets back: a status with its rate-limit headers, or no answer at all. */
  datatype Response = Response(status: int, headers: Headers) | ConnectionFailed

  /** What the call raises to its caller. */
  datatype Failure = HttpError(status: int) | BadRateLimitHeader(fault: HeaderFault) | TransportError

  datatype Outcome =
    | Returned(status: int, snapshot: Snapshot)
    | Raised(failure: Failure)
    | StillThrottled

  /** The requests sent, the sleeps taken (in order), and how the call ended. */
  datatype Trace = Trace(sent: seq<Request>, sleeps: seq<nat>, outcome: Outcome)

  /** `raise_for_status` raises for the client- and server-error ranges. */
  predicate RaisesForStatus(status: int)
  {
    400 <= status < 600
  }

  predicate Throttled(r: Response)
  {
    r.Response? && r.status == TooManyRequests
  }

  /** How an attempt ends when its response is not a 429. */
  function Settle(resp: Response): (o: Outcome)
    requires !Throttled(resp)
    ensures o != StillThrottled
    ensures resp.ConnectionFailed? ==> o == Raised(TransportError)
    ensures resp.Response? && RaisesForStatus(resp.status) ==> o == Raised(HttpError(resp.status))
    ensures o.Returned? <==> resp.Response? && !RaisesForStatus(resp.status) && ReadRateLimit(resp.headers).Ok?
    ensures o.Returned? ==> o.status == resp.status && ReadRateLimit(resp.headers) == Ok(o.snapshot)
    ensures resp.Response? && !RaisesForStatus(resp.status) && ReadRateLimit(resp.headers).Err? ==>
      o == Raised(BadRateLimitHeader(ReadRateLimit(resp.headers).error))
  {
    match resp
    case ConnectionFailed => Raised(TransportError)
    case Response(status, headers) =>
      if RaisesForStatus(status) then Raised(HttpError(status))
      else
        match ReadRateLimit(headers)
        case Err(fault) => Raised(BadRateLimitHeader(fault))
        case Ok(snapshot) => Returned(status, snapshot)
  }

  /** The proactive pause an outcome takes before returning, if any. */
  function PauseOf(o: Outcome): seq<nat>
  {
    if o.Returned? && o.snapshot.pause.Some? then [o.snapshot.pause.value] else []
  }

  /** `request_with_rate_limit` against a scripted server. */
  function RequestWithRateLimit(req: Request, responses: seq<Response>): (t: Trace)
    ensures |t.sent| <= |responses|
    ensures forall k :: 0 <= k < |t.sent| ==> t.sent[k] == req
    decreases |responses|
  {
    if |responses| == 0 then Trace([], [], StillThrottled)
    else if Throttled(responses[0]) then
      var rest := RequestWithRateLimit(req, responses[1..]);
      Trace([req] + rest.sent, [RetryWaitSeconds] + rest.sleeps, rest.outcome)
    else
      var o := Settle(responses[0]);
      Trace([req], PauseOf(o), o)
  }

  /** The index of the first response that is not a 429, or the script's length if there is none. */
  function FirstSettling(responses: seq<Response>): (i: nat)
    ensures i <= |responses|
    ensures forall k :: 0 <= k < i ==> Throttled(responses[k])
    ensures i < |responses| ==> !Throttled(responses[i])
  {
    if |responses| == 0 || !Throttled(responses[0]) then 0
    else 1 + FirstSettling(responses[1..])
  }

  /** `n` retry waits of 30 seconds. */
  function RetryWaits(n: nat): (r: seq<nat>)
    ensures |r| == n && forall k :: 0 <= k < n ==> r[k] == RetryWaitSeconds
  {
    seq(n, _ => RetryWaitSeconds)
  }

  /**
   * The call ends as the first non-429 response decides, after one 30-second
   * wait and one identical resend per 429 before it. A non-429 error is raised
   * on the attempt that received it, with no retry. With no non-429 response in
   * the script, every attempt was throttled.
   */
  lemma {:induction false} OutcomeOfFirstNon429(req: Request, responses: seq<Response>)
    ensures
      var t, i := RequestWithRateLimit(req, responses), FirstSettling(responses);
      if i < |responses| then
        && |t.sent| == i + 1
        && t.outcome == Settle(responses[i])
        && t.sleeps == RetryWaits(i) + PauseOf(t.outcome)
      else
        && |t.sent| == i
        && t.outcome == StillThrottled
        && t.sleeps == RetryWaits(i)
    decreases |responses|
  {
    if |responses| > 0 && Throttled(responses[0]) {
      var rest := responses[1..];
      OutcomeOfFirstNon429(req, rest);
      var i, tr := FirstSettling(rest), RequestWithRateLimit(req, rest);
      assert RequestWithRateLimit(req, responses)
          == Trace([req] + tr.sent, [RetryWaitSeconds] + tr.sleeps, tr.outcome);
      assert [RetryWaitSeconds] + RetryWaits(i) == RetryWaits(i + 1);
      if i < |rest| {
        assert responses[i + 1] == rest[i];
        assert [RetryWaitSeconds] + (RetryWaits(i) + PauseOf(tr.outcome))
            == ([RetryWaitSeconds] + RetryWaits(i)) + PauseOf(tr.outcome);
      }
    } else if |responses| > 0 {
      assert RetryWaits(0) == [];
    }
  }
}

=== FILE: selector.dfy ===
/**
 * The attachment selector. It walks tickets, then comments, then attachments,
 * and produces two things: the tickets that still hold attachments to redact,
 * grouped by comment, and the ids of tickets to export again because a comment
 * was too large.
 */
module Selector {
  import opened Wrappers
  import opened Sequences
  import opened Text
  import opened Tickets
  import opened ReprocessArtifact
  import opened CommentWalk

  /** The two accumulators the selector fills. */
  datatype Selection = Selection(withAttachments: seq<TicketGroup>, toReprocess: seq<Id>)

  /** The file name carries the marker a previous redaction left behind. */
  predicate AlreadyRedacted(a: Attachment)
  {
    Contains(a.fileName, RedactedFileName)
  }

  /** The content URL to redact, unless the attachment was already redacted. */
  function UrlToRedact(a: Attachment): Option<string>
  {
    if AlreadyRedacted(a) then None else Some(a.contentUrl)
  }

  /** The comment has an `attachments` key holding a non-empty list. */
  predicate HasAttachments(c: Comment)
  {
    c.attachments.Some? && |c.attachments.value| > 0
  }

  function AttachmentsOf(c: Comment): seq<Attachment>
  {
    if c.attachments.Some? then c.attachments.value else []
  }

  /** The group a comment contributes: its id and the URLs that survive the marker test. */
  function CommentGroupOf(c: Comment): Option<CommentGroup>
  {
    if HasAttachments(c) then
      var urls := FilterMap(UrlToRedact, c.attachments.value);
      if |urls| > 0 then Some(CommentGroup(c.id, urls)) else None
    else None
  }

  /** The `elif` branch: no non-empty attachments list, and the size-exceeded error code. */
  predicate NeedsReprocess(c: Comment)
  {
    !HasAttachments(c) && c.error == Some(FullJsonExportError)
  }

  /** The group a ticket contributes: its id and its non-empty comment groups, if any. */
  function TicketGroupOf(t: Ticket): Option<TicketGroup>
  {
    var groups := FilterMap(CommentGroupOf, CommentsOf(t));
    if |groups| > 0 then Some(TicketGroup(t.id, groups)) else None
  }

  /** The reprocess entry one visit appends: the visited ticket's id. */
  function ReprocessEntry(v: Visit): Option<Id>
  {
    if NeedsReprocess(v.comment) then Some(v.ticketId) else None
  }

  /** The selector as a pure function of its input, starting from empty accumulators. */
  function Select(tickets: seq<Ticket>): Selection
  {
    Selection(FilterMap(TicketGroupOf, tickets), FilterMap(ReprocessEntry, Visits(tickets)))
  }

  /** Some comment of `t` has a non-empty attachments list holding an attachment not yet redacted. */
  ghost predicate HasRedactableAttachment(t: Ticket)
  {
    exists j :: 0 <= j < |CommentsOf(t)| && HasAttachments(CommentsOf(t)[j])
      && exists k :: 0 <= k < |AttachmentsOf(CommentsOf(t)[j])| && !AlreadyRedacted(AttachmentsOf(CommentsOf(t)[j])[k])
  }

  /**
   * A comment yields a group iff its attachments list is non-empty and holds an
   * attachment not yet redacted; the group carries the comment's id and the
   * content URLs of exactly those attachments, in list order.
   */
  lemma {:induction false} CommentGroupContents(c: Comment)
    ensures CommentGroupOf(c).Some? <==>
      HasAttachments(c) && exists k :: 0 <= k < |AttachmentsOf(c)| && !AlreadyRedacted(AttachmentsOf(c)[k])
    ensures CommentGroupOf(c).Some? ==>
      var g, atts := CommentGroupOf(c).value, AttachmentsOf(c);
      var pos := Hits(UrlToRedact, atts);
      && g.commentId == c.id
      && |g.attachmentContentUrls| == |pos|
      && forall m :: 0 <= m < |pos| ==>
           !AlreadyRedacted(atts[pos[m]]) && g.attachmentContentUrls[m] == atts[pos[m]].contentUrl
  {
    var atts := AttachmentsOf(c);
    assert CommentGroupOf(c).Some? <==> HasAttachments(c) && FilterMap(UrlToRedact, atts) != [];
    assert FilterMap(UrlToRedact, atts) != [] <==> exists k :: 0 <= k < |atts| && !AlreadyRedacted(atts[k]) by {
      FilterMapEmpty(UrlToRedact, atts);
    }
    if CommentGroupOf(c).Some? {
      FilterMapAtHits(UrlToRedact, atts);
    }
  }

  /**
   * A ticket yields a group iff it has a redactable attachment; the group carries
   * the ticket's id and the groups of exactly the comments that yield one, in comment order.
   */
  lemma {:induction false} TicketGroupContents(t: Ticket)
    ensures TicketGroupOf(t).Some? <==> HasRedactableAttachment(t)
    ensures TicketGroupOf(t).Some? ==>
      var g, cs := TicketGroupOf(t).value, CommentsOf(t);
      var pos := Hits(CommentGroupOf, cs);
      && g.ticketId == t.id
      && |g.comments| == |pos|
      && forall m :: 0 <= m < |pos| ==> Some(g.comments[m]) == CommentGroupOf(cs[pos[m]])
  {
    var cs := CommentsOf(t);
    FilterMapAtHits(CommentGroupOf, cs);
    FilterMapEmpty(CommentGroupOf, cs);
    if TicketGroupOf(t).Some? {
      var j :| 0 <= j < |cs| && CommentGroupOf(cs[j]).Some?;
      CommentGroupContents(cs[j]);
    }
    if HasRedactableAttachment(t) {
      var j :| 0 <= j < |cs| && HasAttachments(cs[j])
        && exists k :: 0 <= k < |AttachmentsOf(cs[j])| && !AlreadyRedacted(AttachmentsOf(cs[j])[k]);
      CommentGroupContents(cs[j]);
    }
  }

  /**
   * The tickets emitted are exactly those with a redactable attachment, each
   * once, in input order (the positions `Hits` are strictly increasing).
   */
  lemma {:induction false} SelectedTickets(tickets: seq<Ticket>)
    ensures
      var out, pos := Select(tickets).withAttachments, Hits(TicketGroupOf, tickets);
      && |out| == |pos|
      && (forall m :: 0 <= m < |out| ==> Some(out[m]) == TicketGroupOf(tickets[pos[m]]))
      && (forall i :: 0 <= i < |tickets| ==> (i in pos <==> HasRedactableAttachment(tickets[i])))
  {
    FilterMapAtHits(TicketGroupOf, tickets);
    forall i | 0 <= i < |tickets|
      ensures TicketGroupOf(tickets[i]).Some? <==> HasRedactableAttachment(tickets[i])
    {
      TicketGroupContents(tickets[i]);
    }
  }

  /** A ticket's group, when it has one, holds comment groups and none of them is empty. */
  lemma {:induction false} TicketGroupNonEmpty(t: Ticket)
    requires TicketGroupOf(t).Some?
    ensures |TicketGroupOf(t).value.comments| > 0
    ensures forall cg :: cg in TicketGroupOf(t).value.comments ==> |cg.attachmentContentUrls| > 0
  {
    forall cg | cg in TicketGroupOf(t).value.comments
      ensures |cg.attachmentContentUrls| > 0
    {
      FilterMapMembers(CommentGroupOf, CommentsOf(t), cg);
    }
  }

  /** No empty comment group and no ticket without comment groups is ever emitted. */
  lemma {:induction false} NoEmptyGroups(tickets: seq<Ticket>)
    ensures forall g :: g in Select(tickets).withAttachments ==>
      |g.comments| > 0 && forall cg :: cg in g.comments ==> |cg.attachmentContentUrls| > 0
  {
    forall g | g in Select(tickets).withAttachments
      ensures |g.comments| > 0 && forall cg :: cg in g.comments ==> |cg.attachmentContentUrls| > 0
    {
      FilterMapMembers(TicketGroupOf, tickets, g);
      var i :| 0 <= i < |tickets| && TicketGroupOf(tickets[i]) == Some(g);
      TicketGroupNonEmpty(tickets[i]);
    }
  }

  /** `url` is the content URL of an attachment of `c` that was not yet redacted. */
  ghost predicate UrlFrom(c: Comment, url: string)
  {
    exists k :: 0 <= k < |AttachmentsOf(c)| && AttachmentsOf(c)[k].contentUrl == url && !AlreadyRedacted(AttachmentsOf(c)[k])
  }

  /** `cg` comes from a comment of `t` with the same id and a non-empty attachments list. */
  ghost predicate GroupFrom(t: Ticket, cg: CommentGroup)
  {
    exists j :: 0 <= j < |CommentsOf(t)| && CommentsOf(t)[j].id == cg.commentId && HasAttachments(CommentsOf(t)[j])
      && forall u :: u in cg.attachmentContentUrls ==> UrlFrom(CommentsOf(t)[j], u)
  }

  /** Every URL of a comment's group belongs to an attachment of that comment not yet redacted. */
  lemma {:induction false} CommentGroupFrom(c: Comment, cg: CommentGroup)
    requires CommentGroupOf(c) == Some(cg)
    ensures cg.commentId == c.id && HasAttachments(c)
    ensures forall u :: u in cg.attachmentContentUrls ==> UrlFrom(c, u)
  {
    forall u | u in cg.attachmentContentUrls
      ensures UrlFrom(c, u)
    {
      FilterMapMembers(UrlToRedact, AttachmentsOf(c), u);
    }
  }

  /** Every comment group of a ticket's group comes from a comment of that ticket. */
  lemma {:induction false} TicketGroupFrom(t: Ticket, g: TicketGroup)
    requires TicketGroupOf(t) == Some(g)
    ensures g.ticketId == t.id
    ensures forall cg :: cg in g.comments ==> GroupFrom(t, cg)
  {
    var cs := CommentsOf(t);
    forall cg | cg in g.comments
      ensures GroupFrom(t, cg)
    {
      FilterMapMembers(CommentGroupOf, cs, cg);
      var j :| 0 <= j < |cs| && CommentGroupOf(cs[j]) == Some(cg);
      CommentGroupFrom(cs[j], cg);
    }
  }

  /**
   * Soundness: every emitted URL belongs to an attachment, not yet redacted, of
   * a comment with the group's id, of a ticket with the group's id.
   */
  lemma {:induction false} SelectedUrlsAreUnredacted(tickets: seq<Ticket>)
    ensures forall g :: g in Select(tickets).withAttachments ==>
      (exists i :: 0 <= i < |tickets| && tickets[i].id == g.ticketId
        && forall cg :: cg in g.comments ==> GroupFrom(tickets[i], cg))
  {
    forall g | g in Select(tickets).withAttachments
      ensures exists i :: (0 <= i < |tickets| && tickets[i].id == g.ticketId
        && forall cg :: cg in g.comments ==> GroupFrom(tickets[i], cg))
    {
      FilterMapMembers(TicketGroupOf, tickets, g);
      var i :| 0 <= i < |tickets| && TicketGroupOf(tickets[i]) == Some(g);
      TicketGroupFrom(tickets[i], g);
    }
  }

  /**
   * Completeness: an attachment not yet redacted, in a comment with a non-empty
   * attachments list, has its URL in that comment's group inside that ticket's group.
   */
  lemma {:induction false} RedactableAttachmentIsSelected(tickets: seq<Ticket>, i: nat, j: nat, k: nat)
    requires i < |tickets| && j < |CommentsOf(tickets[i])|
    requires HasAttachments(CommentsOf(tickets[i])[j])
    requires k < |AttachmentsOf(CommentsOf(tickets[i])[j])|
    requires !AlreadyRedacted(AttachmentsOf(CommentsOf(tickets[i])[j])[k])
    ensures exists g, cg :: (g in Select(tickets).withAttachments && cg in g.comments
      && g.ticketId == tickets[i].id && cg.commentId == CommentsOf(tickets[i])[j].id
      && AttachmentsOf(CommentsOf(tickets[i])[j])[k].contentUrl in cg.attachmentContentUrls)
  {
    var t := tickets[i];
    var c := CommentsOf(t)[j];
    var a := AttachmentsOf(c)[k];
    FilterMapMembers(UrlToRedact, AttachmentsOf(c), a.contentUrl);
    var cg := CommentGroupOf(c).value;
    FilterMapMembers(CommentGroupOf, CommentsOf(t), cg);
    var g := TicketGroupOf(t).value;
    FilterMapMembers(TicketGroupOf, tickets, g);
  }

  /**
   * The reprocess list has one entry per visited comment that has no non-empty
   * attachments list and carries the size-exceeded error, in visiting order,
   * duplicates kept; each entry is the id of the ticket that comment belongs to.
   */
  lemma {:induction false} ReprocessEntries(tickets: seq<Ticket>)
    ensures
      var out, visits := Select(tickets).toReprocess, Visits(tickets);
      var pos := Hits(ReprocessEntry, visits);
      && |out| == |pos|
      && (forall m :: 0 <= m < |out| ==>
            out[m] == visits[pos[m]].ticketId
            && !HasAttachments(visits[pos[m]].comment)
            && visits[pos[m]].comment.error == Some(FullJsonExportError))
      && (forall v :: 0 <= v < |visits| ==> (v in pos <==> NeedsReprocess(visits[v].comment)))
  {
    FilterMapAtHits(ReprocessEntry, Visits(tickets));
  }

  /**
   * A ticket whose `comments` key is absent or not a list contributes nothing:
   * removing it from the input leaves both outputs unchanged.
   */
  lemma {:induction false} MalformedCommentsContributeNothing(tickets: seq<Ticket>, i: nat)
    requires i < |tickets| && !tickets[i].comments.Items?
    ensures Select(tickets) == Select(tickets[..i] + tickets[i + 1..])
  {
    var before, after := tickets[..i], tickets[i + 1..];
    assert tickets == (before + [tickets[i]]) + after;
    SkipGroups(before, tickets[i], after);
    SkipVisits(before, tickets[i], after);
  }

  lemma {:induction false} SkipGroups(before: seq<Ticket>, t: Ticket, after: seq<Ticket>)
    requires !t.comments.Items?
    ensures FilterMap(TicketGroupOf, (before + [t]) + after) == FilterMap(TicketGroupOf, before + after)
  {
    FilterMapAppend(TicketGroupOf, before + [t], after);
    FilterMapStep(TicketGroupOf, before + [t], |before|);
    assert (before + [t])[..|before|] == before;
    FilterMapAppend(TicketGroupOf, before, after);
  }

  lemma {:induction false} SkipVisits(before: seq<Ticket>, t: Ticket, after: seq<Ticket>)
    requires !t.comments.Items?
    ensures Visits((before + [t]) + after) == Visits(before + after)
  {
    VisitsAppend(before + [t], after);
    assert (before + [t])[..|before|] == before;
    VisitsAppend(before, after);
  }

  /** The innermost loop: the content URLs of the attachments not yet redacted, in order. */
  method CollectUrls(attachments: seq<Attachment>) returns (urls: seq<string>)
    ensures urls == FilterMap(UrlToRedact, attachments)
  {
    urls := [];
    var k := 0;
    while k < |attachments|
      invariant k <= |attachments|
      invariant urls == FilterMap(UrlToRedact, attachments[..k])
    {
      if !Contains(attachments[k].fileName, RedactedFileName) {
        urls := urls + [attachments[k].contentUrl];
      }
      FilterMapStep(UrlToRedact, attachments, k);
      k := k + 1;
    }
    assert attachments[..k] == attachments;
  }

  /**
   * The comment loop of one ticket: the comment groups it builds and the
   * reprocess entries it appends.
   */
  method WalkComments(ticket: Ticket) returns (groups: seq<CommentGroup>, flagged: seq<Id>)
    ensures groups == FilterMap(CommentGroupOf, CommentsOf(ticket))
    ensures flagged == FilterMap(ReprocessEntry, VisitsOf(ticket))
  {
    groups, flagged := [], [];
    if !ticket.comments.Items? {
      return;
    }
    var comments := ticket.comments.comments;
    var j := 0;
    while j < |comments|
      invariant j <= |comments|
      invariant groups == FilterMap(CommentGroupOf, comments[..j])
      invariant flagged == FilterMap(ReprocessEntry, VisitsOf(ticket)[..j])
    {
      var comment := comments[j];
      if comment.attachments.Some? && |comment.attachments.value| > 0 {
        var urls := CollectUrls(comment.attachments.value);
        if |urls| > 0 {
          groups := groups + [CommentGroup(comment.id, urls)];
        }
      } else if comment.error == Some(FullJsonExportError) {
        flagged := flagged + [ticket.id];
      }
      FilterMapStep(CommentGroupOf, comments, j);
      FilterMapStep(ReprocessEntry, VisitsOf(ticket), j);
      j := j + 1;
    }
    assert comments[..j] == comments;
    assert VisitsOf(ticket)[..j] == VisitsOf(ticket);
  }

  /**
   * The ticket loop: the group of every ticket that yields one and the
   * reprocess entries of every visited comment, in walking order.
   */
  method WalkTickets(tickets: seq<Ticket>) returns (withAttachments: seq<TicketGroup>, toReprocess: seq<Id>)
    ensures withAttachments == FilterMap(TicketGroupOf, tickets)
    ensures toReprocess == FilterMap(ReprocessEntry, Visits(tickets))
  {
    withAttachments, toReprocess := [], [];
    var i := 0;
    while i < |tickets|
      invariant i <= |tickets|
      invariant withAttachments == FilterMap(TicketGroupOf, tickets[..i])
      invariant toReprocess == FilterMap(ReprocessEntry, Visits(tickets[..i]))
    {
      var ticket := tickets[i];
      var groups, flagged := WalkComments(ticket);
      FilterMapStep(TicketGroupOf, tickets, i);
      VisitsStep(tickets, i);
      FilterMapAppend(ReprocessEntry, Visits(tickets[..i]), VisitsOf(ticket));
      if |groups| > 0 {
        withAttachments := withAttachments + [TicketGroup(ticket.id, groups)];
      }
      toReprocess := toReprocess + flagged;
      i := i + 1;
    }
    assert tickets[..i] == tickets;
  }

  /**
   * The selector as the program runs it: the loops append to the module-level
   * accumulators `accumulated`, then the reprocess artifact is rendered from the
   * whole reprocess accumulator. From empty accumulators the result is `Select`.
   */
  method FindAttachmentsToBeRedacted(accumulated: Selection, tickets: seq<Ticket>)
    returns (result: Selection, reprocessArtifact: string)
    ensures result.withAttachments == accumulated.withAttachments + Select(tickets).withAttachments
    ensures result.toReprocess == accumulated.toReprocess + Select(tickets).toReprocess
    ensures reprocessArtifact == RenderIds(result.toReprocess)
  {
    var withAttachments, toReprocess := WalkTickets(tickets);
    result := Selection(accumulated.withAttachments + withAttachments, accumulated.toReprocess + toReprocess);
    reprocessArtifact := RenderIds(result.toReprocess);
  }
}

=== FILE: sequences.dfy ===
/**
 * Order-preserving selection over sequences. Every loop of the selector and the
 * NDJSON line filter has the same shape: walk a sequence in order and append
 * something for the elements a test accepts. `FilterMap` is that shape, and
 * `Hits` names the positions it keeps, so that properties of the output can be
 * stated position by position.
 */
module Sequences {
  import opened Wrappers

  /** The zero- or one-element sequence an optional value contributes. */
  function Emit<U>(o: Option<U>): (r: seq<U>)
    ensures o.None? <==> r == []
    ensures o.Some? ==> r == [o.value]
  {
    match o
    case None => []
    case Some(u) => [u]
  }

  /** Payloads of the elements on which `f` answers `Some`, in input order. */
  function FilterMap<T, U>(f: T -> Option<U>, s: seq<T>): seq<U>
  {
    if |s| == 0 then []
    else FilterMap(f, s[..|s| - 1]) + Emit(f(s[|s| - 1]))
  }

  /**
   * The positions of `s` on which `f` answers `Some`: strictly increasing,
   * each one accepted, and every accepted position present.
   */
  function Hits<T, U>(f: T -> Option<U>, s: seq<T>): (r: seq<nat>)
    ensures forall k :: 0 <= k < |r| ==> r[k] < |s| && f(s[r[k]]).Some?
    ensures forall k, l :: 0 <= k < l < |r| ==> r[k] < r[l]
    ensures forall j :: 0 <= j < |s| && f(s[j]).Some? ==> j in r
  {
    if |s| == 0 then []
    else
      var n := |s| - 1;
      var prefix := Hits(f, s[..n]);
      assert forall k :: 0 <= k < |prefix| ==> s[..n][prefix[k]] == s[prefix[k]];
      assert forall j :: 0 <= j < n ==> s[..n][j] == s[j];
      prefix + (if f(s[n]).Some? then [n] else [])
  }

  /** The output of `FilterMap` is exactly the payloads found at `Hits`, one per position. */
  lemma {:induction false} FilterMapAtHits<T, U>(f: T -> Option<U>, s: seq<T>)
    ensures |FilterMap(f, s)| == |Hits(f, s)|
    ensures forall k :: 0 <= k < |Hits(f, s)| ==> f(s[Hits(f, s)[k]]) == Some(FilterMap(f, s)[k])
  {
    if |s| > 0 {
      var n := |s| - 1;
      FilterMapAtHits(f, s[..n]);
      var out, pos := FilterMap(f, s), Hits(f, s);
      var out', pos' := FilterMap(f, s[..n]), Hits(f, s[..n]);
      assert out == out' + Emit(f(s[n]));
      assert pos == pos' + (if f(s[n]).Some? then [n] else []);
      forall k | 0 <= k < |pos'|
        ensures f(s[pos[k]]) == Some(out[k])
      {
        assert s[..n][pos'[k]] == s[pos'[k]];
      }
    }
  }

  /** A value is in the output iff some element maps to it. */
  lemma {:induction false} FilterMapMembers<T, U>(f: T -> Option<U>, s: seq<T>, u: U)
    ensures u in FilterMap(f, s) <==> exists j :: 0 <= j < |s| && f(s[j]) == Some(u)
  {
    FilterMapAtHits(f, s);
    var out, pos := FilterMap(f, s), Hits(f, s);
    if u in out {
      var k :| 0 <= k < |out| && out[k] == u;
      assert f(s[pos[k]]) == Some(u);
    }
    if j :| 0 <= j < |s| && f(s[j]) == Some(u) {
      assert j in pos;
      var k :| 0 <= k < |pos| && pos[k] == j;
      assert out[k] == u;
    }
  }

  /** The output is empty iff `f` rejects every element. */
  lemma {:induction false} FilterMapEmpty<T, U>(f: T -> Option<U>, s: seq<T>)
    ensures FilterMap(f, s) == [] <==> forall j :: 0 <= j < |s| ==> f(s[j]).None?
    decreases |s|
  {
    if |s| > 0 {
      var n := |s| - 1;
      var before := FilterMap(f, s[..n]);
      FilterMapEmpty(f, s[..n]);
      assert FilterMap(f, s) == [] <==> before == [] && f(s[n]).None?;
      assert forall j :: 0 <= j < n ==> s[..n][j] == s[j];
    }
  }

  /** Walking two sequences one after the other selects what each selects on its own. */
  lemma {:induction false} FilterMapAppend<T, U>(f: T -> Option<U>, a: seq<T>, b: seq<T>)
    ensures FilterMap(f, a + b) == FilterMap(f, a) + FilterMap(f, b)
    decreases |b|
  {
    if |b| == 0 {
      assert a + b == a;
    } else {
      var n := |b| - 1;
      assert (a + b)[..|a + b| - 1] == a + b[..n];
      assert (a + b)[|a + b| - 1] == b[n];
      FilterMapAppend(f, a, b[..n]);
    }
  }

  /** One more step of a left-to-right walk: the prefix up to `i + 1` adds the element at `i`. */
  lemma {:induction false} FilterMapStep<T, U>(f: T -> Option<U>, s: seq<T>, i: nat)
    requires i < |s|
    ensures FilterMap(f, s[..i + 1]) == FilterMap(f, s[..i]) + Emit(f(s[i]))
  {
    assert s[..i + 1][..i] == s[..i];
  }
}

=== FILE: text.dfy ===
/**
 * The few string operations of Python the tool relies on: substring membership
 * (`sub in s`), `str.split` on a one-character separator and its inverse
 * `str.join`, and `str.strip()` with Python's set of whitespace characters.
 */
module Text {

  /** Python `sub in s`: `sub` occurs somewhere in `s` (the empty string occurs everywhere). */
  function Contains(s: string, sub: string): bool
    decreases |s|
  {
    if |sub| > |s| then false
    else s[..|sub|] == sub || (|s| > 0 && Contains(s[1..], sub))
  }

  /** `sub` occurs in `s` starting at index `i`. */
  ghost predicate OccursAt(s: string, sub: string, i: int)
  {
    0 <= i && i + |sub| <= |s| && s[i..i + |sub|] == sub
  }

  /** `Contains` is exactly "some occurrence position exists". */
  lemma {:induction false} ContainsIff(s: string, sub: string)
    ensures Contains(s, sub) <==> exists i :: OccursAt(s, sub, i)
    decreases |s|
  {
    if |sub| > |s| {
      if i :| OccursAt(s, sub, i) {
        assert false;
      }
    } else if s[..|sub|] == sub {
      assert OccursAt(s, sub, 0);
    } else {
      ContainsIff(s[1..], sub);
      if Contains(s[1..], sub) {
        var i :| OccursAt(s[1..], sub, i);
        assert s[1..][i..i + |sub|] == s[i + 1..i + 1 + |sub|];
        assert OccursAt(s, sub, i + 1);
      }
      if i :| OccursAt(s, sub, i) {
        assert i != 0;
        assert s[1..][i - 1..i - 1 + |sub|] == s[i..i + |sub|];
        assert OccursAt(s[1..], sub, i - 1);
      }
    }
  }

  /** Python `str.isspace()` for one character. */
  predicate IsSpace(c: char)
  {
    var u := c as int;
    || (0x09 <= u <= 0x0D) || (0x1C <= u <= 0x20) || u == 0x85 || u == 0xA0
    || u == 0x1680 || (0x2000 <= u <= 0x200A) || u == 0x2028 || u == 0x2029
    || u == 0x202F || u == 0x205F || u == 0x3000
  }

  /** `s` without its leading whitespace. */
  function TrimStart(s: string): (r: string)
    ensures |r| <= |s| && r == s[|s| - |r|..]
    ensures |r| > 0 ==> !IsSpace(r[0])
    ensures forall k :: 0 <= k < |s| - |r| ==> IsSpace(s[k])
  {
    if |s| > 0 && IsSpace(s[0]) then
      var r := TrimStart(s[1..]);
      assert forall k :: 1 <= k < |s| - |r| ==> s[k] == s[1..][k - 1];
      r
    else s
  }

  /** `s` without its trailing whitespace. */
  function TrimEnd(s: string): (r: string)
    ensures |r| <= |s| && r == s[..|r|]
    ensures |r| > 0 ==> !IsSpace(r[|r| - 1])
    ensures forall k :: |r| <= k < |s| ==> IsSpace(s[k])
  {
    if |s| > 0 && IsSpace(s[|s| - 1]) then
      var r := TrimEnd(s[..|s| - 1]);
      assert forall k :: |r| <= k < |s| - 1 ==> s[k] == s[..|s| - 1][k];
      r
    else s
  }

  /** A string is blank when every character is whitespace. */
  ghost predicate IsBlank(s: string)
  {
    forall k :: 0 <= k < |s| ==> IsSpace(s[k])
  }

  /**
   * Python `s.strip()`: a slice of `s` that neither starts nor ends with
   * whitespace, empty exactly when `s` is blank.
   */
  function Strip(s: string): (r: string)
    ensures exists a :: 0 <= a <= |s| - |r| && s[a..][..|r|] == r
    ensures |r| > 0 ==> !IsSpace(r[0]) && !IsSpace(r[|r| - 1])
    ensures r == "" <==> IsBlank(s)
  {
    var t := TrimStart(s);
    var r := TrimEnd(t);
    assert s[|s| - |t|..][..|r|] == r;
    assert r == "" ==> t == "";
    r
  }

  /**
   * `strip()` removes whitespace and only whitespace: what it drops before and
   * after the slice it keeps is blank.
   */
  lemma {:induction false} StripRemovesOnlyWhitespace(s: string)
    ensures var r := Strip(s);
      exists a :: 0 <= a <= |s| - |r| && s[a..][..|r|] == r && IsBlank(s[..a]) && IsBlank(s[a + |r|..])
  {
    var t := TrimStart(s);
    var r := TrimEnd(t);
    var a := |s| - |t|;
    assert s[a..] == t;
    assert s[a..][..|r|] == r;
    assert IsBlank(s[..a]);
    assert s[a + |r|..] == t[|r|..];
    assert IsBlank(s[a + |r|..]);
  }

  /** Python `s.split(sep)` for a one-character separator: the pieces between separators. */
  function Split(s: string, sep: char): (parts: seq<string>)
    ensures |parts| == multiset(s)[sep] + 1
    ensures forall k :: 0 <= k < |parts| ==> sep !in parts[k]
  {
    if |s| == 0 then [""]
    else
      assert s == [s[0]] + s[1..];
      var rest := Split(s[1..], sep);
      if s[0] == sep then [""] + rest
      else [[s[0]] + rest[0]] + rest[1..]
  }

  /** Python `sep.join(parts)`. */
  function Join(parts: seq<string>, sep: char): string
  {
    if |parts| == 0 then ""
    else if |parts| == 1 then parts[0]
    else parts[0] + [sep] + Join(parts[1..], sep)
  }

  /** Joining the pieces of a split with the same separator rebuilds the string. */
  lemma {:induction false} JoinSplit(s: string, sep: char)
    ensures Join(Split(s, sep), sep) == s
    decreases |s|
  {
    if |s| > 0 {
      var rest := Split(s[1..], sep);
      JoinSplit(s[1..], sep);
      assert s == [s[0]] + s[1..];
      if s[0] == sep {
        JoinAfterEmpty(rest, sep);
      } else {
        JoinExtendFirst(s[0], rest, sep);
      }
    }
  }

  /** An empty first piece contributes only its separator. */
  lemma {:induction false} JoinAfterEmpty(rest: seq<string>, sep: char)
    requires |rest| >= 1
    ensures Join([""] + rest, sep) == [sep] + Join(rest, sep)
  {
  }

  /** Prepending a character to the first piece prepends it to the join. */
  lemma {:induction false} JoinExtendFirst(c: char, rest: seq<string>, sep: char)
    requires |rest| >= 1
    ensures Join([[c] + rest[0]] + rest[1..], sep) == [c] + Join(rest, sep)
  {
  }

  /** A piece free of the separator, followed by the separator, splits off as one piece. */
  lemma {:induction false} SplitAfterPiece(p: string, sep: char, t: string)
    requires sep !in p
    ensures Split(p + [sep] + t, sep) == [p] + Split(t, sep)
    decreases |p|
  {
    var s := p + [sep] + t;
    if |p| > 0 {
      assert s[1..] == p[1..] + [sep] + t;
      SplitAfterPiece(p[1..], sep, t);
      assert [p[0]] + p[1..] == p;
    } else {
      assert s[1..] == t;
    }
  }

  /** A string free of the separator splits into itself alone. */
  lemma {:induction false} SplitWithoutSeparator(p: string, sep: char)
    requires sep !in p
    ensures Split(p, sep) == [p]
    decreases |p|
  {
    if |p| > 0 {
      SplitWithoutSeparator(p[1..], sep);
      assert [p[0]] + p[1..] == p;
    }
  }

  /** Splitting a join of separator-free pieces gives the pieces back. */
  lemma {:induction false} SplitJoin(parts: seq<string>, sep: char)
    requires |parts| >= 1
    requires forall k :: 0 <= k < |parts| ==> sep !in parts[k]
    ensures Split(Join(parts, sep), sep) == parts
    decreases |parts|
  {
    if |parts| == 1 {
      SplitWithoutSeparator(parts[0], sep);
    } else {
      SplitJoin(parts[1..], sep);
      SplitAfterPiece(parts[0], sep, Join(parts[1..], sep));
      assert [parts[0]] + parts[1..] == parts;
    }
  }
}

=== FILE: throttle.dfy ===
/**
 * Proactive throttling after a successful call: read the three rate-limit
 * headers and decide whether to pause, and for how long, before the next call.
 */
module Throttle {
  import opened Wrappers
  import opened Decimal

  const LimitHeader: string := "X-Rate-Limit"
  const RemainingHeader: string := "X-Rate-Limit-Remaining"
  const ResetHeader: string := "RateLimit-Reset"

  /** A pause needs the reset window to be at least this many seconds away. */
  const MinResetForPause: int := 30

  /** The ceiling on one pause, in seconds. */
  const MaxPauseSeconds: nat := 15

  /** The three headers of a response; `None` when the response lacks the header. */
  datatype Headers = Headers(limit: Option<string>, remaining: Option<string>, reset: Option<string>)

  /** Why reading the headers raised: a header was absent (`KeyError`) or not an integer (`ValueError`). */
  datatype HeaderFault = MissingHeader(name: string) | NotAnInteger(value: string)

  /** The three header values as read, and the pause taken before returning, if any. */
  datatype Snapshot = Snapshot(limit: string, remaining: string, reset: string, pause: Option<nat>)

  /**
   * Python `min(reset // 2, 15)`. Dafny's `/` agrees with Python's `//` here
   * because the divisor is positive.
   */
  function PauseSeconds(reset: int): int
  {
    if reset / 2 < MaxPauseSeconds then reset / 2 else MaxPauseSeconds
  }

  /**
   * The pause decision on three non-empty header values. Python evaluates
   * `int(remaining)`, then `int(limit)`, and reads `int(reset)` only when the
   * first comparison holds; an unparsable value raises at the point it is read.
   * A pause happens exactly when remaining is at most 60% of the limit and the
   * reset is at least 30 seconds away, and every pause is 15 seconds long.
   */
  function PauseDecision(limit: string, remaining: string, reset: string): (r: Result<Option<nat>, HeaderFault>)
    ensures r.Ok? && r.value.Some? ==> r.value.value == MaxPauseSeconds
    ensures r.Ok? && r.value.Some? <==>
      && ParseInt(remaining).Some? && ParseInt(limit).Some? && ParseInt(reset).Some?
      && ParseInt(remaining).value as real <= 0.6 * ParseInt(limit).value as real
      && ParseInt(reset).value >= MinResetForPause
    ensures ParseInt(remaining).None? ==> r == Err(NotAnInteger(remaining))
    ensures ParseInt(remaining).Some? && ParseInt(limit).None? ==> r == Err(NotAnInteger(limit))
    ensures (&& ParseInt(remaining).Some? && ParseInt(limit).Some?
             && ParseInt(remaining).value as real > 0.6 * ParseInt(limit).value as real) ==> r == Ok(None)
    ensures (&& ParseInt(remaining).Some? && ParseInt(limit).Some?
             && ParseInt(remaining).value as real <= 0.6 * ParseInt(limit).value as real
             && ParseInt(reset).None?) ==> r == Err(NotAnInteger(reset))
    ensures (&& ParseInt(remaining).Some? && ParseInt(limit).Some? && ParseInt(reset).Some?
             && ParseInt(remaining).value as real <= 0.6 * ParseInt(limit).value as real
             && ParseInt(reset).value < MinResetForPause) ==> r == Ok(None)
    ensures r.Err? ==> r.error.NotAnInteger? && r.error.value in [remaining, limit, reset]
  {
    match ParseInt(remaining)
    case None => Err(NotAnInteger(remaining))
    case Some(rem) =>
      match ParseInt(limit)
      case None => Err(NotAnInteger(limit))
      case Some(lim) =>
        if !(5 * rem <= 3 * lim) then Ok(None)
        else
          match ParseInt(reset)
          case None => Err(NotAnInteger(reset))
          case Some(rst) =>
            if rst >= MinResetForPause then Ok(Some(PauseSeconds(rst) as nat)) else Ok(None)
  }

  /**
   * Reading the rate-limit headers of a successful response: each header is
   * looked up (absent raises), and the pause decision is taken only when all
   * three values are non-empty strings.
   */
  function ReadRateLimit(h: Headers): (r: Result<Snapshot, HeaderFault>)
    ensures h.limit.None? ==> r == Err(MissingHeader(LimitHeader))
    ensures h.limit.Some? && h.remaining.None? ==> r == Err(MissingHeader(RemainingHeader))
    ensures h.limit.Some? && h.remaining.Some? && h.reset.None? ==> r == Err(MissingHeader(ResetHeader))
    ensures (&& h.limit.Some? && h.remaining.Some? && h.reset.Some?
             && h.limit.value != "" && h.remaining.value != "" && h.reset.value != "") ==>
      var d := PauseDecision(h.limit.value, h.remaining.value, h.reset.value);
      && (d.Ok? ==> r == Ok(Snapshot(h.limit.value, h.remaining.value, h.reset.value, d.value)))
      && (d.Err? ==> r == Err(d.error))
    ensures (&& h.limit.Some? && h.remaining.Some? && h.reset.Some?
             && (h.limit.value == "" || h.remaining.value == "" || h.reset.value == "")) ==>
      r == Ok(Snapshot(h.limit.value, h.remaining.value, h.reset.value, None))
    ensures r.Ok? ==> && h.limit == Some(r.value.limit)
                      && h.remaining == Some(r.value.remaining)
                      && h.reset == Some(r.value.reset)
    ensures r.Ok? && r.value.pause.Some? ==>
      && r.value.limit != "" && r.value.remaining != "" && r.value.reset != ""
      && r.value.pause.value == MaxPauseSeconds
  {
    if h.limit.None? then Err(MissingHeader(LimitHeader))
    else if h.remaining.None? then Err(MissingHeader(RemainingHeader))
    else if h.reset.None? then Err(MissingHeader(ResetHeader))
    else
      var limit, remaining, reset := h.limit.value, h.remaining.value, h.reset.value;
      if limit == "" || remaining == "" || reset == "" then Ok(Snapshot(limit, remaining, reset, None))
      else
        match PauseDecision(limit, remaining, reset)
        case Err(fault) => Err(fault)
        case Ok(pause) => Ok(Snapshot(limit, remaining, reset, pause))
  }
}

=== FILE: tickets.dfy ===
/**
 * The records of a full JSON export of a support-ticket platform, reduced to the
 * fields the selector reads, and the two artifacts the selector builds.
 */
module Tickets {
  import opened Wrappers

  /** A file name containing this marker belongs to an attachment that was already redacted. */
  const RedactedFileName: string := "redacted.txt"

  /** The export's error code for a ticket whose comments were too large to export in full. */
  const FullJsonExportError: string := "MaximumCommentsSizeExceeded"

  /** A ticket or comment identifier: a JSON number or a JSON string. */
  datatype Id = Num(n: int) | Str(s: string)

  datatype Attachment = Attachment(fileName: string, contentUrl: string)

  /**
   * A comment. `attachments` is `None` when the key is absent; `error` is `None`
   * when the key is absent and otherwise the exported error code.
   */
  datatype Comment = Comment(id: Id, attachments: Option<seq<Attachment>>, error: Option<string>)

  /** The `comments` key of a ticket: absent, present but not a JSON list, or a list. */
  datatype CommentsField = Absent | NotAList | Items(comments: seq<Comment>)

  datatype Ticket = Ticket(id: Id, comments: CommentsField)

  /** One comment's attachments still to be redacted, by content URL. */
  datatype CommentGroup = CommentGroup(commentId: Id, attachmentContentUrls: seq<string>)

  /** One ticket's comments that still hold attachments to redact. */
  datatype TicketGroup = TicketGroup(ticketId: Id, comments: seq<CommentGroup>)
}

=== FILE: walk.dfy ===
/**
 * The order in which the selector visits comments: ticket by ticket, and within
 * a ticket in list order, skipping tickets whose `comments` key is not a list.
 */
module CommentWalk {
  import opened Tickets

  /** One step of the comment walk: the ticket being walked and one of its comments. */
  datatype Visit = Visit(ticketId: Id, comment: Comment)

  /** The comments the walk visits: none unless `comments` is a list. */
  function CommentsOf(t: Ticket): seq<Comment>
  {
    match t.comments
    case Items(cs) => cs
    case _ => []
  }

  function VisitsOf(t: Ticket): seq<Visit>
  {
    seq(|CommentsOf(t)|, j requires 0 <= j < |CommentsOf(t)| => Visit(t.id, CommentsOf(t)[j]))
  }

  /** Every comment the walk visits, ticket by ticket, in visiting order. */
  function Visits(tickets: seq<Ticket>): seq<Visit>
  {
    if |tickets| == 0 then []
    else Visits(tickets[..|tickets| - 1]) + VisitsOf(tickets[|tickets| - 1])
  }

  /** The visit at offset `j` of ticket `i`'s block is ticket `i` with its comment `j`. */
  lemma {:induction false} VisitAt(tickets: seq<Ticket>, i: nat, j: nat)
    requires i < |tickets| && j < |CommentsOf(tickets[i])|
    ensures |Visits(tickets[..i])| + j < |Visits(tickets)|
    ensures Visits(tickets)[|Visits(tickets[..i])| + j] == Visit(tickets[i].id, CommentsOf(tickets[i])[j])
    decreases |tickets|
  {
    var n := |tickets| - 1;
    if i < n {
      assert tickets[..n][..i] == tickets[..i];
      VisitAt(tickets[..n], i, j);
    } else {
      assert tickets[..n] == tickets[..i];
    }
  }

  /** Every visit is some ticket of the input together with one of its comments. */
  lemma {:induction false} VisitFrom(tickets: seq<Ticket>, m: nat)
    requires m < |Visits(tickets)|
    ensures exists i, j :: (0 <= i < |tickets| && 0 <= j < |CommentsOf(tickets[i])|
      && Visits(tickets)[m] == Visit(tickets[i].id, CommentsOf(tickets[i])[j]))
    decreases |tickets|
  {
    var n := |tickets| - 1;
    var before := Visits(tickets[..n]);
    if m < |before| {
      VisitFrom(tickets[..n], m);
      var i, j :| 0 <= i < n && 0 <= j < |CommentsOf(tickets[..n][i])|
        && before[m] == Visit(tickets[..n][i].id, CommentsOf(tickets[..n][i])[j]);
      assert tickets[..n][i] == tickets[i];
    } else {
      var j := m - |before|;
      assert Visits(tickets)[m] == VisitsOf(tickets[n])[j];
    }
  }

  lemma {:induction false} VisitsAppend(a: seq<Ticket>, b: seq<Ticket>)
    ensures Visits(a + b) == Visits(a) + Visits(b)
    decreases |b|
  {
    if |b| == 0 {
      assert a + b == a;
    } else {
      VisitsAppend(a, b[..|b| - 1]);
      VisitsAppendLast(a, b);
    }
  }

  lemma {:induction false} VisitsAppendLast(a: seq<Ticket>, b: seq<Ticket>)
    requires |b| > 0
    requires Visits(a + b[..|b| - 1]) == Visits(a) + Visits(b[..|b| - 1])
    ensures Visits(a + b) == Visits(a) + Visits(b)
  {
    var ab := a + b;
    assert ab[..|ab| - 1] == a + b[..|b| - 1];
    var x, y, z := Visits(a), Visits(b[..|b| - 1]), VisitsOf(b[|b| - 1]);
    assert Visits(ab) == (x + y) + z;
    assert (x + y) + z == x + (y + z);
  }

  /** One more ticket of a left-to-right walk adds that ticket's visits. */
  lemma {:induction false} VisitsStep(tickets: seq<Ticket>, i: nat)
    requires i < |tickets|
    ensures Visits(tickets[..i + 1]) == Visits(tickets[..i]) + VisitsOf(tickets[i])
  {
    assert tickets[..i + 1][..i] == tickets[..i];
  }
}

=== FILE: wrappers.dfy ===
/** Failure-compatible value wrappers shared by every module of the model. */
module Wrappers {

  /** A value that may be absent: a JSON key that is not there, a parse that failed. */
  datatype Option<+T> = None | Some(value: T)

  /** Either a computed value or the reason the computation stopped. */
  datatype Result<+R, +E> = Ok(value: R) | Err(error: E)
}
